=== FILE: README.md ===
# Cache bookkeeping of the stable-diffusion download server

The download server keeps artifacts in a directory under `./data`. It also keeps
an SQLite table of access records, one row per path with the file's size and
the time of its last check. This project models that bookkeeping as a
functional state machine over two pieces of state:

- the **artifact directory**. It is a map from path to entry, and an entry is
  either a regular file with its bytes or a symbolic link to a path;
- the **record table**. It is a map from path to `(fileSize, accessTime)`.

Each request handler is a pure function from the old state and the request to
the new state and the JSON reply:

- `fetch` writes a downloaded body;
- `check` records an access and runs the eviction loop `_gc`;
- `copy_file`, `set_symlink` and `rm_file` change the directory.

Modules:

- `Files` (files.dfy): paths, entries and link resolution. Existence follows
  links as `os.path.exists` does. The walk stops after the 40 link hops Linux
  allows in one lookup, so a dangling link or a link cycle does not exist.
- `Records` (records.dfy): the table, the insert-or-update of a check, and
  the batch `ORDER BY access_time DESC LIMIT 5`.
- `Eviction` (eviction.dfy): the `_gc` loop, with free space read once and
  compared with 20 GiB.
- `State` (state.dfy): the store, which pairs the directory with the table.
- `Service` (service.dfy): the handlers and their replies.
- `Wrappers` (wrappers.dfy): `Option`.

Modelling choices:

- A path is the name a request gives, relative to the base directory
  `./data`. The handlers join it onto `./data`. A link entry records the
  path, relative to `./data`, that the kernel reaches by following the
  link.
- Free space, the clock and the download result are parameters.
- `startTime` is a parameter that stays fixed for a process. It stands for
  the default `datetime.datetime.now()`, which Python evaluates once, when
  the record class is defined.
- The batch is built by repeatedly picking a row with the latest access time.
  Among rows with equal access times the pick is fixed but unspecified, as
  the database's sort order is. That choice needs a let-such-that, so the
  batch, the loop and `check` are ghost functions.
- An exception that escapes a handler is modelled as the reply
  `ServerError` together with the state at that point. Examples are
  `os.remove` on a path with no entry, `open` on a link cycle, and
  `shutil.copy` from a source that is no longer there. When `_gc` raises,
  files it already removed stay removed. The row deletions of the
  unfinished batch were never committed, so they roll back.

Behaviour of the code worth knowing, all of it modelled as written:

- Free space is measured once, at `main.py:138`, not after each batch. A
  loop that starts under the watermark therefore empties the whole table.
- A batch holds the rows with the *latest* access times, not the least
  recently used ones.
- Refreshing a row changes only `access_time`. The size is not re-read.
- A dangling link does not count as existing, because `os.path.exists`
  follows links.
- When a recorded path has no entry, `_gc` does not skip it: `os.remove`
  raises and the check fails. The row is never deleted, so every later check
  of an existing path fails the same way while free space is low, until
  something writes an entry at that path again (a repeated `fetch`, say). A
  check of a path that does not exist never runs `_gc` and still answers
  `exist: false`.
- When `_gc` raises, the entries it removed earlier in the failing batch
  stay removed, but their rows roll back. A failed check can therefore leave
  new stale rows behind, even for the file it was checking. Rows of batches
  committed before the raise went with their entries, and no row kept is
  newer than them. Ties are common, because every first check in one
  process stamps the same start time, so a kept row can be exactly as old
  as a deleted one.
- `fetch` can fail with a server error when opening the path hits a link
  cycle.
- `set_symlink` stores the text `./data/<source>` in the link. The base
  directory is relative, and the kernel reads a relative link text from the
  link's own directory. The link at `./data/<link>` therefore leads to
  `./data/<directory of link>/data/<source>`, not to the source. Unless a
  file sits at that doubled path, the link dangles. A later `check` of it
  answers `exist: false` and changes nothing, `rm_file` leaves it in place,
  and `copy_file` from it does nothing.

## Model

| member | source | states |
|---|---|---|
| Files.Walk | main.py:109 | following the links from a path ends at a regular file, at a path with no entry, or (only from a link) at the hop limit; a regular file resolves to itself and a missing path to itself |
| Files.OccupiedIffEntry | main.py:163 | the guard `exists(t) or islink(t)` holds exactly when the target has an entry of any kind |
| Files.WalkAfterWrite | main.py:82-83 | writing a file at the end of a path's links makes the path resolve to that file |
| Records.Upsert | main.py:127-134 | after a check the path has a row; an existing row keeps its size and takes the current time; a new row takes the file's current size and the process start time; all other rows are unchanged |
| Records.UpsertLastWins | main.py:128-130 | two checks of a recorded path give the same row as the second alone; the size is never refreshed |
| Records.NewRowIgnoresClock | main.py:27 | a first check stamps the process start time whatever the clock says, and adds exactly one row |
| Records.Newest | main.py:142 | the batch has `min(k, rows)` distinct recorded paths in descending access-time order, and no row left out is newer than a row taken |
| Records.OldestNotInFirstBatch | main.py:142 | with more rows than the batch size, the strictly oldest row is not in the first batch (the order is the reverse of LRU) |
| Eviction.Evict | main.py:143-146 | removing a batch gets through exactly when every path in it has an entry, and then those entries and rows are gone and nothing else; otherwise it stops at the first path with no entry, and exactly the entries of the paths before it are gone |
| Eviction.Drain | main.py:141-149 | below the watermark the loop finishes exactly when every recorded path has an entry, emptying the table and removing exactly the recorded paths; otherwise it raises on a recorded path with no entry and deletes no such row; either way every deleted row lost its entry, and no kept row is newer than a deleted one |
| Eviction.Gc | main.py:137-150 | at or above 20 GiB nothing changes; below it the loop either deletes every row and every recorded entry or raises; entries without a row are never touched; every deleted row lost its entry, and deleted rows are the newest |
| Eviction.DrainRaisesAfterFirst | main.py:141-147 | with a newer row that has an entry and an older one that has none, the loop removes the newer entry, raises on the older path, and keeps both rows |
| Eviction.GcAllOrNothing | main.py:138-141 | a finished loop deletes either no row or every row |
| Eviction.GcRemovesRowsWithFiles | main.py:145-146 | when the loop finishes, a deleted row lost its entry and a removed entry lost its row |
| Eviction.DrainRounds | main.py:141-148 | a loop over `n` consistent rows runs exactly `ceil(n/5) + 1` rounds, the last one with an empty batch |
| Eviction.GcRounds | main.py:138-148 | zero rounds at or above the watermark for any table; `ceil(n/5) + 1` below it when every one of the `n` rows has an entry |
| Eviction.EvictFreed | main.py:143-144 | the size counted for a batch is the recorded size of its rows |
| Eviction.DrainFreed | main.py:140-144 | the freed total of a finished loop is the sum of the recorded sizes of all rows, not the bytes actually freed |
| Eviction.GcFreed | main.py:138-144 | the freed total is the table's recorded size below the watermark and zero above it |
| Service.Fetch | main.py:76-84 | a failed download changes nothing and replies `is_ok`; a body is written unless the path's links loop, which is the only server error; a written body adds at most the one entry at the end of the path's links; the table is never touched |
| Service.FetchStoresContent | main.py:79-83 | after a successful write the path exists and reads back the body; only the entry at the end of its links changed, and no other entry appeared |
| Service.FetchWritesThroughLink | main.py:82-83 | fetching onto a link to a file overwrites the file and keeps the link |
| Service.Check | main.py:101-124 | the reply reports existence after eviction; a missing path changes nothing; at or above the watermark only the upsert happens; below it with consistent rows the table is emptied and the checked path itself is gone; with a stale row the check fails; in every case only recorded paths and the checked path can lose their entries, and every row deleted lost its entry |
| Service.CheckKeepsStaleRow | main.py:109-113 | a row whose path has no entry survives every check, and its path stays without an entry |
| Service.CheckRaiseLeavesNewStaleRow | main.py:109-113 | a low-disk check of a recorded regular file that shares the table with one stale row older than the check fails, removes the checked file, and keeps its row, which becomes stale |
| Service.RefetchHealsStaleRow | main.py:79-83 | fetching a stale row's path gives the path an entry again, so the row stops being stale |
| Service.RemovedRowBreaksCheck | main.py:194-197 | removing a checked file leaves its row, so the next low-disk check of any existing file fails and the row remains |
| Service.CopyFile | main.py:160-166 | a missing source changes nothing and succeeds; the copy fails exactly when removing the target broke the source; only the target entry changes |
| Service.CopyMakesCopy | main.py:162-165 | a successful copy leaves a regular file at the target holding the bytes read through the source |
| Service.CopyOntoItself | main.py:163-165 | copying an existing path onto itself deletes it and fails |
| Service.SetSymlink | main.py:176-184 | a missing source changes nothing and replies "file not found!" with status 400; otherwise the link path becomes a link whose text is `./data/<source>`, which leads to `LinkLanding(link, source)` rather than to the source, and nothing else changes |
| Files.LinkLanding | main.py:45 | following a link whose text is `./data/name` leads to a path that starts with the link's own directory, ends with `name`, is longer than both together, and is never the link itself |
| Service.SymlinkDangles | main.py:176-182 | with nothing at the doubled path, the new link does not exist: a `check` of it answers `exist: false` and changes nothing, `rm_file` keeps it, and `copy_file` from it does nothing |
| Service.SymlinkReadsLanding | main.py:181 | the new link reads the file at the doubled path when there is one, not the source |
| Service.SymlinkOntoItself | main.py:178-182 | linking an existing path to itself succeeds, replaces its entry with a link, and with nothing at the doubled path the path no longer exists |
| Service.RmFile | main.py:194-197 | afterwards the path does not exist, the reply is always success, only that entry can go, and the table is untouched |
| Service.RmIdempotent | main.py:194-197 | removing twice gives the same state and reply as removing once |
| Service.RmKeepsDanglingLink | main.py:195-196 | a dangling link is not removed, since the existence test follows links |

## Left out

- `download_file` (`main.py:87-98`) is left out. It streams a file, which is I/O. Its existence test looks at the bare file name in the working directory, and modelling that would need a model of the working directory.
- The HTTP routing, the request classes and the server start-up (`main.py:14`, `main.py:48-72`, `main.py:200-209`) are plumbing and are not modelled.
- The network fetch (`main.py:77`) is an `Option` input: `None` for a non-OK status. A transport exception raised by `requests.get` would give a server error, and it is not modelled.
- Path normalisation is not modelled. An absolute argument, a `..` component or a doubled `/` is out of scope, including one that escapes `./data`. `fetch` builds its path from `dirname` and `basename`, and the model treats that path as the same key.
- Directories are not modelled. So `os.makedirs`, a missing parent directory, `os.remove` on a directory and `shutil.copy` into a directory are out of scope.
- Links already in the directory are taken as already resolved. Their entry records where they lead, not their text. Only the links `set_symlink` makes have their text's resolution modelled.
- The database engine and session are a plain map. Commits take effect at once. The one rollback kept is the one `_gc` depends on: the unfinished batch when `os.remove` raises.
- `psutil.disk_usage` is left out. Free space is a number, read once per loop as the code does.
- The wall clock is a natural number, and `startTime` is a parameter.
- Logging is left out. The freed total that `_gc` logs is returned instead.
- Concurrent requests are left out, since the service promises nothing about them.
- The float division of the threshold is restated as `free < 20 * 1024 ^ 3`.
- Permission errors and other operating-system failures are left out. Only a missing entry and a link cycle are modelled.

=== FILE: eviction.dfy ===
/**
  The eviction loop `_gc`. Free space is measured once, before the loop; while
  that one figure is under 20 GiB the loop takes the (up to) five rows with
  the LATEST access times, removes each row's path with `os.remove` and
  deletes the row, commits, and goes round again; an empty batch ends it.
  Because the figure is never re-measured, a run that starts low empties the
  whole table.

  `os.remove` on a path with no entry raises, which aborts the request: the
  paths already removed stay removed, while the row deletions of the
  unfinished batch are never committed and roll back.
 */
module Eviction {
  import opened Files
  import opened Records
  import opened State

  const GiB: nat := 1024 * 1024 * 1024

  /** `free / 1024 ** 3 < 20`, stated over integers. */
  const Watermark: nat := 20 * GiB

  /** `LIMIT 5` */
  const BatchSize: nat := 5

  /** Result of removing one batch, path by path, in order. */
  datatype BatchEnd =
    | Evicted(fs: Fs, table: Table, freed: nat)   // every path removed, every row deleted
    | Missing(fs: Fs, missing: Path, at: nat)     // `os.remove(missing)` raised at position `at`

  /** Result of the whole loop. */
  datatype GcResult =
    | Finished(store: Store, freed: nat, rounds: nat)
    | Raised(store: Store, missing: Path)

  /** No entry outside `gone` is changed or removed, and none is added. */
  ghost predicate OnlyRemoves(fs: Fs, fs': Fs, gone: set<Path>) {
    && fs'.Keys <= fs.Keys
    && forall q :: q in fs && q !in gone ==> q in fs' && fs'[q] == fs[q]
  }

  /** What removing a batch does: it gets through exactly when every path in
      it has an entry, and then the batch's paths lose their entries and
      their rows; otherwise it stops at the first path with no entry, after
      removing the entries of the paths before it. Either way no entry
      outside the batch is touched. */
  ghost predicate EvictSpec(fs: Fs, table: Table, batch: seq<Path>, r: BatchEnd) {
    && (r.Evicted? <==> forall i :: 0 <= i < |batch| ==> batch[i] in fs)
    && (r.Evicted? ==> r.fs == fs - Elems(batch) && r.table == table - Elems(batch))
    && (r.Evicted? ==> |r.table| + |batch| == |table|)
    && (r.Missing? ==> r.at < |batch| && r.missing == batch[r.at] && r.missing !in fs)
    && (r.Missing? ==> (forall j :: 0 <= j < r.at ==> batch[j] in fs) && r.fs == fs - Elems(batch[..r.at]))
    && OnlyRemoves(fs, r.fs, Elems(batch))
  }

  /** The inner `for record in records` loop over one batch. */
  function Evict(fs: Fs, table: Table, batch: seq<Path>): (r: BatchEnd)
    requires forall i :: 0 <= i < |batch| ==> batch[i] in table
    requires Distinct(batch)
    ensures EvictSpec(fs, table, batch, r)
    decreases |batch|
  {
    if |batch| == 0 then
      EvictNothing(fs, table);
      Evicted(fs, table, 0)
    else
      var p := batch[0];
      if p !in fs then
        EvictFirstMissing(fs, table, batch);
        Missing(fs, p, 0)
      else
        TailOfDistinct(table, batch);
        RemoveOneCard(table, p);
        var rest := Evict(fs - {p}, table - {p}, batch[1..]);
        EvictCons(fs, table, batch, rest, table[p].fileSize);
        AfterFirst(rest, table[p].fileSize)
  }

  /** The result of the rest of a batch, seen from the whole batch once its
      first path (with recorded size `size`) has been removed. */
  function AfterFirst(r: BatchEnd, size: nat): (r': BatchEnd) {
    if r.Evicted? then r.(freed := r.freed + size) else r.(at := r.at + 1)
  }

  lemma EvictNothing(fs: Fs, table: Table)
    ensures EvictSpec(fs, table, [], Evicted(fs, table, 0))
  {
    assert Elems([]) == {};
    assert fs - {} == fs;
    assert table - {} == table;
  }

  lemma EvictFirstMissing(fs: Fs, table: Table, batch: seq<Path>)
    requires |batch| > 0 && batch[0] !in fs
    ensures EvictSpec(fs, table, batch, Missing(fs, batch[0], 0))
  {
    assert batch[..0] == [];
    assert Elems([]) == {};
    assert fs - {} == fs;
  }

  /** The contract of `Evict` carries over from the rest of the batch to the
      whole batch when its first path has an entry. */
  lemma EvictCons(fs: Fs, table: Table, batch: seq<Path>, rest: BatchEnd, size: nat)
    requires |batch| > 0 && batch[0] in fs && batch[0] in table
    requires forall x :: x in batch[1..] ==> x != batch[0]
    requires |table - {batch[0]}| == |table| - 1
    requires EvictSpec(fs - {batch[0]}, table - {batch[0]}, batch[1..], rest)
    ensures EvictSpec(fs, table, batch, AfterFirst(rest, size))
  {
    OnlyRemovesFirst(fs, rest.fs, batch);
    if rest.Evicted? {
      RemoveFirst(fs, batch);
      RemoveFirst(table, batch);
      forall i | 0 <= i < |batch| ensures batch[i] in fs {
        if i > 0 { assert batch[i] == batch[1..][i - 1]; }
      }
    } else {
      EvictConsMissing(fs, batch, rest);
    }
  }

  /** The first path had an entry and the rest of the batch stopped at its
      `k`-th path: the whole batch stops at its `k + 1`-th. */
  lemma EvictConsMissing(fs: Fs, batch: seq<Path>, rest: BatchEnd)
    requires |batch| > 0 && batch[0] in fs
    requires forall x :: x in batch[1..] ==> x != batch[0]
    requires rest.Missing?
    requires rest.at < |batch[1..]| && rest.missing == batch[1..][rest.at] && rest.missing !in fs - {batch[0]}
    requires forall j :: 0 <= j < rest.at ==> batch[1..][j] in fs - {batch[0]}
    requires rest.fs == (fs - {batch[0]}) - Elems(batch[1..][..rest.at])
    ensures rest.at + 1 < |batch| && rest.missing == batch[rest.at + 1] && rest.missing !in fs
    ensures forall j :: 0 <= j < rest.at + 1 ==> batch[j] in fs
    ensures rest.fs == fs - Elems(batch[..rest.at + 1])
  {
    var k := rest.at;
    assert batch[k + 1] == batch[1..][k];
    assert rest.missing in batch[1..];
    forall j | 0 <= j < k + 1 ensures batch[j] in fs {
      if j > 0 { assert batch[j] == batch[1..][j - 1]; }
    }
    var before := batch[..k + 1];
    assert before[0] == batch[0] && before[1..] == batch[1..][..k];
    RemoveFirst(fs, before);
  }

  lemma TailOfDistinct(table: Table, batch: seq<Path>)
    requires |batch| > 0
    requires forall i :: 0 <= i < |batch| ==> batch[i] in table
    requires Distinct(batch)
    ensures forall i :: 0 <= i < |batch[1..]| ==> batch[1..][i] in table - {batch[0]}
    ensures Distinct(batch[1..])
    ensures forall x :: x in batch[1..] ==> x != batch[0]
  {
    forall i | 0 <= i < |batch[1..]| ensures batch[1..][i] in table - {batch[0]} {
      assert batch[1..][i] == batch[i + 1];
    }
  }

  lemma RemoveFirst<V>(m: map<Path, V>, batch: seq<Path>)
    requires |batch| > 0
    ensures (m - {batch[0]}) - Elems(batch[1..]) == m - Elems(batch)
  {
    assert Elems(batch) == {batch[0]} + Elems(batch[1..]);
  }

  lemma OnlyRemovesFirst(fs: Fs, fs': Fs, batch: seq<Path>)
    requires |batch| > 0
    requires OnlyRemoves(fs - {batch[0]}, fs', Elems(batch[1..]))
    ensures OnlyRemoves(fs, fs', Elems(batch))
  {
    assert Elems(batch) == {batch[0]} + Elems(batch[1..]);
  }

  /** Every row deleted between `s` and `s'` lost its entry too. */
  ghost predicate DeletedWithEntry(s: Store, s': Store) {
    forall q :: q in s.table && q !in s'.table ==> q !in s'.fs
  }

  /** No row that survived from `s` to `s'` was accessed later than a row that
      was deleted: rows go newest first. */
  ghost predicate DeletedNewer(s: Store, s': Store) {
    forall q, q' :: q in s.table && q !in s'.table && q' in s'.table && q' in s.table ==>
      s.table[q'].accessTime <= s.table[q].accessTime
  }

  /** What the loop does below the watermark: it finishes exactly when every
      recorded path has an entry, and then the table is empty and every
      recorded path has lost its entry; otherwise it raises on a recorded path
      with no entry. Rows that survive are unchanged, a row whose path has no
      entry is never deleted, no entry without a row is touched, and the rows
      deleted (all of them, or those of the batches committed before the
      raise) lost their entries, and no row kept is newer than them. The
      reverse fails on a raise: entries removed in the unfinished batch keep
      their rows. */
  ghost predicate DrainSpec(s: Store, r: GcResult) {
    && (r.Finished? <==> s.table.Keys <= s.fs.Keys)
    && (r.Finished? ==> r.store.table == map[] && r.store.fs == s.fs - s.table.Keys)
    && (r.Raised? ==> r.missing in s.table && r.missing !in s.fs)
    && r.store.table.Keys <= s.table.Keys
    && (forall q :: q in r.store.table ==> r.store.table[q] == s.table[q])
    && (forall q :: q in s.table && q !in s.fs ==> q in r.store.table)
    && OnlyRemoves(s.fs, r.store.fs, s.table.Keys)
    && DeletedWithEntry(s, r.store)
    && DeletedNewer(s, r.store)
  }

  /** The `while` loop once free space is known to be under the watermark:
      every round takes the newest batch; an empty batch ends the loop. */
  ghost function Drain(s: Store): (r: GcResult)
    ensures DrainSpec(s, r)
    decreases |s.table|
  {
    var batch := Newest(s.table, BatchSize);
    var e := Evict(s.fs, s.table, batch);
    if e.Missing? then
      DrainStopsAt(s, batch, e);
      Raised(Store(e.fs, s.table), e.missing)
    else if |batch| == 0 then
      DrainEmpty(s);
      Finished(s, 0, 1)
    else
      var rest := Drain(Store(e.fs, e.table));
      DrainStep(s, batch, e, rest);
      AddRound(rest, e.freed)
  }

  /** Counts one more completed round, and the sizes it freed, into the result
      of the rounds after it. */
  function AddRound(r: GcResult, freed: nat): (r': GcResult) {
    if r.Finished? then Finished(r.store, r.freed + freed, r.rounds + 1) else r
  }

  lemma DrainEmpty(s: Store)
    requires |s.table| == 0
    ensures DrainSpec(s, Finished(s, 0, 1))
  {
    assert s.table.Keys == {};
    assert s.fs - s.table.Keys == s.fs;
  }

  lemma DrainStopsAt(s: Store, batch: seq<Path>, e: BatchEnd)
    requires forall i :: 0 <= i < |batch| ==> batch[i] in s.table
    requires EvictSpec(s.fs, s.table, batch, e)
    requires e.Missing?
    ensures DrainSpec(s, Raised(Store(e.fs, s.table), e.missing))
  {
    assert Elems(batch) <= s.table.Keys;
  }

  lemma DrainStep(s: Store, batch: seq<Path>, e: BatchEnd, rest: GcResult)
    requires forall i :: 0 <= i < |batch| ==> batch[i] in s.table
    requires EvictSpec(s.fs, s.table, batch, e)
    requires forall i, q :: 0 <= i < |batch| && q in s.table && q !in batch ==>
      s.table[q].accessTime <= s.table[batch[i]].accessTime
    requires e.Evicted?
    requires DrainSpec(Store(e.fs, e.table), rest)
    ensures DrainSpec(s, AddRound(rest, e.freed))
  {
    var gone := Elems(batch);
    assert gone <= s.table.Keys;
    assert gone <= s.fs.Keys;
    KeysAfterRemoval(s.fs, s.table, gone, e.fs, e.table);
    RowsAfterRemoval(s.table, gone, e.table, rest.store.table);
    StaleAfterRemoval(s.fs, s.table, gone, e.fs, e.table, rest.store.table);
    OnlyRemovesAfter(s.fs, gone, s.table.Keys, e.fs, rest.store.fs);
    DeletedAfterStep(s, batch, e, rest.store);
  }

  /** A committed batch of the newest rows, followed by rounds that delete
      rows only together with their entries and newest first, deletes rows
      only together with their entries and newest first. */
  lemma DeletedAfterStep(s: Store, batch: seq<Path>, e: BatchEnd, s': Store)
    requires forall i :: 0 <= i < |batch| ==> batch[i] in s.table
    requires forall i, q :: 0 <= i < |batch| && q in s.table && q !in batch ==>
      s.table[q].accessTime <= s.table[batch[i]].accessTime
    requires e.Evicted? && e.fs == s.fs - Elems(batch) && e.table == s.table - Elems(batch)
    requires s'.fs.Keys <= e.fs.Keys && s'.table.Keys <= e.table.Keys
    requires DeletedWithEntry(Store(e.fs, e.table), s')
    requires DeletedNewer(Store(e.fs, e.table), s')
    ensures DeletedWithEntry(s, s')
    ensures DeletedNewer(s, s')
  {
    forall q | q in s.table && q !in s'.table ensures q !in s'.fs {
      if q !in batch { assert q in e.table; }
    }
    forall q, q' | q in s.table && q !in s'.table && q' in s'.table && q' in s.table
      ensures s.table[q'].accessTime <= s.table[q].accessTime
    {
      assert q' in e.table && q' !in batch;
      if q in batch {
        var i :| 0 <= i < |batch| && batch[i] == q;
      } else {
        assert q in e.table;
      }
    }
  }

  /** Removing the same paths from both maps, all of them present in both,
      keeps "every row has an entry" and what is left after removing the rows. */
  lemma KeysAfterRemoval<V, W>(f: map<Path, V>, t: map<Path, W>, gone: set<Path>, f': map<Path, V>, t': map<Path, W>)
    requires gone <= f.Keys && gone <= t.Keys
    requires f' == f - gone && t' == t - gone
    ensures t'.Keys <= f'.Keys <==> t.Keys <= f.Keys
    ensures f' - t'.Keys == f - t.Keys
  {
    assert f'.Keys == f.Keys - gone;
    assert t'.Keys == t.Keys - gone;
    var lhs, rhs := f' - t'.Keys, f - t.Keys;
    assert lhs.Keys == rhs.Keys by {
      assert lhs.Keys == (f.Keys - gone) - (t.Keys - gone);
      assert rhs.Keys == f.Keys - t.Keys;
    }
    forall q | q in lhs ensures lhs[q] == rhs[q] {
      assert lhs[q] == f'[q] == f[q];
    }
  }

  lemma RowsAfterRemoval(t: Table, gone: set<Path>, t': Table, t'': Table)
    requires t' == t - gone
    requires t''.Keys <= t'.Keys
    requires forall q :: q in t'' ==> t''[q] == t'[q]
    ensures t''.Keys <= t.Keys
    ensures forall q :: q in t'' ==> t''[q] == t[q]
  {
  }

  lemma StaleAfterRemoval(f: Fs, t: Table, gone: set<Path>, f': Fs, t': Table, t'': Table)
    requires gone <= f.Keys
    requires f' == f - gone && t' == t - gone
    requires forall q :: q in t' && q !in f' ==> q in t''
    ensures forall q :: q in t && q !in f ==> q in t''
  {
    forall q | q in t && q !in f ensures q in t'' {
      assert q !in gone;
    }
  }

  lemma OnlyRemovesAfter(f: Fs, gone: set<Path>, rows: set<Path>, f': Fs, f'': Fs)
    requires gone <= rows
    requires OnlyRemoves(f, f', gone)
    requires OnlyRemoves(f', f'', rows - gone)
    ensures OnlyRemoves(f, f'', rows)
  {
  }

  /** `_gc`: nothing happens when the single free-space reading is at or above
      the watermark; below it the loop either empties the table, removing
      every recorded path, or raises on a recorded path that has no entry.
      Entries without a row are never touched, and a row whose path has no
      entry is never deleted. */
  ghost function Gc(s: Store, free: nat): (r: GcResult)
    ensures free >= Watermark ==> r == Finished(s, 0, 0)
    ensures free < Watermark && s.table.Keys <= s.fs.Keys ==>
      r.Finished? && r.store.table == map[] && r.store.fs == s.fs - s.table.Keys
    ensures free < Watermark && !(s.table.Keys <= s.fs.Keys) ==>
      r.Raised? && r.missing in s.table && r.missing !in s.fs
    ensures forall q :: q in s.table && q !in s.fs ==> q in r.store.table
    ensures OnlyRemoves(s.fs, r.store.fs, s.table.Keys)
    ensures DeletedWithEntry(s, r.store) && DeletedNewer(s, r.store)
  {
    if free >= Watermark then Finished(s, 0, 0) else Drain(s)
  }

  /** Two rows, the newer one with an entry and the older one without: the
      loop removes the newer row's entry, raises on the older one, and keeps
      both rows. */
  lemma DrainRaisesAfterFirst(s: Store, p: Path, z: Path)
    requires s.table.Keys == {p, z} && s.table[z].accessTime < s.table[p].accessTime
    requires p in s.fs && z !in s.fs
    ensures Drain(s) == Raised(Store(s.fs - {p}, s.table), z)
  {
    NewestOfTwo(s.table, p, z, BatchSize);
    EvictPair(s.fs, s.table, p, z);
  }

  lemma EvictPair(fs: Fs, table: Table, p: Path, z: Path)
    requires p in table && z in table && p != z
    requires p in fs && z !in fs
    ensures Evict(fs, table, [p, z]) == Missing(fs - {p}, z, 1)
  {
    var e := Evict(fs, table, [p, z]);
    assert [p, z][..1] == [p] && Elems([p]) == {p};
    assert e.Missing? && e.at == 1;
  }

  /** The loop deletes either no row or all of them. */
  lemma GcAllOrNothing(s: Store, free: nat)
    ensures Gc(s, free).Finished? ==> Gc(s, free).store == s || Gc(s, free).store.table == map[]
    ensures Gc(s, free).Finished? && free < Watermark ==> Gc(s, free).store.table == map[]
  {
  }

  /** Rows and files go together when the loop finishes: a row it deleted
      lost its entry, and an entry it removed lost its row. */
  lemma GcRemovesRowsWithFiles(s: Store, free: nat, q: Path)
    requires Gc(s, free).Finished?
    ensures q in s.table && q !in Gc(s, free).store.table ==> q !in Gc(s, free).store.fs
    ensures q in s.fs && q !in Gc(s, free).store.fs ==> q in s.table && q !in Gc(s, free).store.table
  {
  }

  /** A finished loop below the watermark runs `ceil(n / 5) + 1` rounds for `n`
      rows: one per full or partial batch, plus the empty one that stops it. */
  lemma {:induction false} DrainRounds(s: Store)
    requires s.table.Keys <= s.fs.Keys
    ensures Drain(s).Finished?
    ensures Drain(s).rounds == (|s.table| + BatchSize - 1) / BatchSize + 1
    decreases |s.table|
  {
    var batch := Newest(s.table, BatchSize);
    var e := Evict(s.fs, s.table, batch);
    if |batch| > 0 {
      var rest := Drain(Store(e.fs, e.table));
      assert Drain(s) == AddRound(rest, e.freed);
      DrainRounds(Store(e.fs, e.table));
    }
  }

  /** The sizes counted while removing a batch are the recorded sizes of its
      rows. */
  lemma {:induction false} EvictFreed(fs: Fs, table: Table, batch: seq<Path>)
    requires forall i :: 0 <= i < |batch| ==> batch[i] in table
    requires Distinct(batch)
    requires Evict(fs, table, batch).Evicted?
    ensures TotalSize(table) == Evict(fs, table, batch).freed + TotalSize(Evict(fs, table, batch).table)
    decreases |batch|
  {
    if |batch| > 0 {
      var p := batch[0];
      assert p in fs;
      TailOfDistinct(table, batch);
      RemoveOneCard(table, p);
      var rest := Evict(fs - {p}, table - {p}, batch[1..]);
      assert Evict(fs, table, batch) == AfterFirst(rest, table[p].fileSize);
      TotalSizeRemove(table, p);
      EvictFreed(fs - {p}, table - {p}, batch[1..]);
    }
  }

  /** The logged `total_free_size` is the sum of the recorded sizes of all the
      deleted rows — not a measurement of the bytes actually freed. */
  lemma {:induction false} DrainFreed(s: Store)
    ensures Drain(s).Finished? ==> Drain(s).freed == TotalSize(s.table)
    decreases |s.table|
  {
    var batch := Newest(s.table, BatchSize);
    var e := Evict(s.fs, s.table, batch);
    if e.Evicted? {
      if |batch| == 0 {
        assert Drain(s) == Finished(s, 0, 1);
      } else {
        EvictFreed(s.fs, s.table, batch);
        var rest := Drain(Store(e.fs, e.table));
        assert Drain(s) == AddRound(rest, e.freed);
        DrainFreed(Store(e.fs, e.table));
        if rest.Finished? {
          calc {
            Drain(s).freed;
            e.freed + rest.freed;
            e.freed + TotalSize(e.table);
            TotalSize(s.table);
          }
        }
      }
    }
  }

  lemma GcFreed(s: Store, free: nat)
    ensures Gc(s, free).Finished? && free < Watermark ==> Gc(s, free).freed == TotalSize(s.table)
    ensures Gc(s, free).Finished? && free >= Watermark ==> Gc(s, free).freed == 0
  {
    DrainFreed(s);
  }

  lemma GcRounds(s: Store, free: nat)
    ensures free >= Watermark ==> Gc(s, free).rounds == 0
    ensures free < Watermark && s.table.Keys <= s.fs.Keys ==>
      Gc(s, free).rounds == (|s.table| + BatchSize - 1) / BatchSize + 1
  {
    if free < Watermark && s.table.Keys <= s.fs.Keys {
      DrainRounds(s);
    }
  }
}

=== FILE: files.dfy ===
/**
  The artifact directory under the service's base directory, as an abstract
  filesystem: a finite map from a path, written relative to the base
  directory `./data`, to either a regular file with its bytes or a symbolic
  link. A link records the path, again relative to the base directory, that
  the kernel reaches when it follows the link's text.

  Existence follows symbolic links, as `os.path.exists` does: a path exists
  when following its links ends at a regular file. A dangling link, or a
  chain that needs more link hops than the kernel allows, does not exist.
 */
module Files {

  type Path = string

  newtype byte = x: int | 0 <= x < 256

  datatype Entry =
    | File(content: seq<byte>)
    | Link(target: Path)

  type Fs = map<Path, Entry>

  /** Linux follows at most 40 symbolic links while resolving one path
      (MAXSYMLINKS); one more hop fails with ELOOP. */
  const MaxHops: nat := 40

  /** Where following the links from a path ends. */
  datatype WalkEnd =
    | Regular(at: Path)     // a regular file
    | Dangling(at: Path)    // a path with no entry at all
    | TooManyLinks          // the hop budget ran out (ELOOP)

  /** Follow symbolic links from `p`, allowing `budget` more hops. */
  function Walk(fs: Fs, p: Path, budget: nat): (w: WalkEnd)
    ensures w.Regular? ==> w.at in fs && fs[w.at].File?
    ensures w.Dangling? ==> w.at !in fs
    ensures w.TooManyLinks? ==> p in fs && fs[p].Link?
    ensures p in fs && fs[p].File? ==> w == Regular(p)
    ensures p !in fs ==> w == Dangling(p)
    decreases budget
  {
    if p !in fs then Dangling(p)
    else match fs[p]
      case File(_) => Regular(p)
      case Link(t) => if budget == 0 then TooManyLinks else Walk(fs, t, budget - 1)
  }

  /** `os.path.exists`: the path resolves to a regular file. */
  predicate Exists(fs: Fs, p: Path) {
    Walk(fs, p, MaxHops).Regular?
  }

  /** `os.path.islink`: the path itself is a symbolic link, resolvable or not. */
  predicate IsLink(fs: Fs, p: Path) {
    p in fs && fs[p].Link?
  }

  /** The bytes read through `p` (links followed). */
  function Content(fs: Fs, p: Path): (c: seq<byte>)
    requires Exists(fs, p)
  {
    fs[Walk(fs, p, MaxHops).at].content
  }

  /** `os.path.getsize`, which also follows links. */
  function Size(fs: Fs, p: Path): (n: nat)
    requires Exists(fs, p)
  {
    |Content(fs, p)|
  }

  /** `fs'` keeps a subset of the entries of `fs`, each unchanged. */
  ghost predicate Submap(fs': Fs, fs: Fs) {
    fs'.Keys <= fs.Keys && forall q :: q in fs' ==> fs'[q] == fs[q]
  }

  /** The guard the copy and symlink handlers use before removing a target,
      `exists(t) or islink(t)`, holds exactly when `t` has an entry. */
  lemma OccupiedIffEntry(fs: Fs, t: Path)
    ensures Exists(fs, t) || IsLink(fs, t) <==> t in fs
  {
  }

  /** Removing entries never makes a resolvable path resolve elsewhere: a walk
      that reaches a regular file in a sub-filesystem takes the same route in
      the whole one. */
  lemma {:induction false} WalkInSubmap(fs': Fs, fs: Fs, p: Path, budget: nat)
    requires Submap(fs', fs)
    requires Walk(fs', p, budget).Regular?
    ensures Walk(fs, p, budget) == Walk(fs', p, budget)
    decreases budget
  {
    assert p in fs';
    match fs'[p]
    case File(_) =>
    case Link(t) =>
      WalkInSubmap(fs', fs, t, budget - 1);
  }

  /** Writing a regular file at the end of a walk (what opening a path for
      writing does) makes the path resolve to that file, over the same links. */
  lemma {:induction false} WalkAfterWrite(fs: Fs, p: Path, budget: nat, c: seq<byte>)
    requires !Walk(fs, p, budget).TooManyLinks?
    ensures Walk(fs[Walk(fs, p, budget).at := File(c)], p, budget) == Regular(Walk(fs, p, budget).at)
    decreases budget
  {
    var q := Walk(fs, p, budget).at;
    if p in fs {
      match fs[p]
      case File(_) =>
      case Link(t) =>
        assert p != q;
        WalkAfterWrite(fs, t, budget - 1, c);
    }
  }

  /** The base directory of every handler, relative to the working
      directory. */
  const BaseDir: Path := "./data"

  /** The directory part of `p`: everything up to and including its last
      `/`, or nothing when `p` has no `/`. */
  function DirPart(p: Path): (d: Path)
    ensures |d| <= |p| && d == p[..|d|]
    ensures |d| == 0 || d[|d| - 1] == '/'
    ensures forall i :: |d| <= i < |p| ==> p[i] != '/'
  {
    if |p| == 0 then ""
    else if p[|p| - 1] == '/' then p
    else DirPart(p[..|p| - 1])
  }

  /** Where the kernel lands when it follows a link stored at `link` whose
      text is `os.path.join(BaseDir, name)`, that is `./data/name`. A
      relative link text is read from the link's own directory, so the base
      directory is entered a second time: the link at `./data/link` leads to
      `./data/<dir of link>/data/name`. */
  function LinkLanding(link: Path, name: Path): (q: Path)
    ensures |DirPart(link)| + |name| < |q|
    ensures q[..|DirPart(link)|] == DirPart(link) && q[|q| - |name|..] == name
    ensures q != link
  {
    var q := DirPart(link) + BaseDir[2..] + "/" + name;
    assert q[|DirPart(link)| + 4] == '/';
    q
  }
}

=== FILE: records.dfy ===
/**
  The access-record table: one row per checked path holding the size the
  file had when the row was created and the time of its last check.
 */
module Records {
  import opened Files

  type Time = nat

  datatype Record = Record(fileSize: nat, accessTime: Time)

  type Table = map<Path, Record>

  /** Insert-or-update on a successful check (`_save_or_update_record`). An
      existing row only gets its access time refreshed; a new row takes the
      current size of the file and the column default `startTime`, the one
      timestamp evaluated when the record class was defined. */
  function Upsert(table: Table, fs: Fs, p: Path, now: Time, startTime: Time): (t: Table)
    requires Exists(fs, p)
    ensures t.Keys == table.Keys + {p}
    ensures p in table ==> t[p] == Record(table[p].fileSize, now)
    ensures p !in table ==> t[p] == Record(Size(fs, p), startTime)
    ensures forall q :: q in table && q != p ==> t[q] == table[q]
  {
    if p in table then table[p := table[p].(accessTime := now)]
    else table[p := Record(Size(fs, p), startTime)]
  }

  /** Two checks of a recorded path leave the row as the second one alone
      would: the size is never re-read, and the last time wins. */
  lemma UpsertLastWins(table: Table, fs: Fs, p: Path, t1: Time, t2: Time, startTime: Time)
    requires Exists(fs, p)
    ensures p in table ==>
      Upsert(Upsert(table, fs, p, t1, startTime), fs, p, t2, startTime) == Upsert(table, fs, p, t2, startTime)
    ensures Upsert(Upsert(table, fs, p, t1, startTime), fs, p, t2, startTime)[p]
      == Record(Upsert(table, fs, p, t1, startTime)[p].fileSize, t2)
  {
  }

  /** The access time of a first check is `startTime`, whatever the clock says,
      so it can be older than a row refreshed long before. */
  lemma NewRowIgnoresClock(table: Table, fs: Fs, p: Path, now: Time, startTime: Time)
    requires Exists(fs, p) && p !in table
    ensures Upsert(table, fs, p, now, startTime)[p].accessTime == startTime
    ensures |Upsert(table, fs, p, now, startTime)| == |table| + 1
  {
  }

  predicate Distinct(b: seq<Path>) {
    forall i, j :: 0 <= i < j < |b| ==> b[i] != b[j]
  }

  function Elems(b: seq<Path>): (e: set<Path>) {
    set x | x in b
  }

  lemma {:induction false} ElemsCard(b: seq<Path>)
    ensures |Elems(b)| <= |b|
  {
    if |b| > 0 {
      ElemsCard(b[1..]);
      assert Elems(b) == {b[0]} + Elems(b[1..]);
    }
  }

  lemma RemoveOneCard(t: Table, p: Path)
    requires p in t
    ensures |t - {p}| == |t| - 1
  {
    assert (t - {p}).Keys == t.Keys - {p};
  }

  /** `p` holds the latest access time in the table. */
  ghost predicate IsNewest(t: Table, p: Path) {
    p in t && forall q :: q in t ==> t[q].accessTime <= t[p].accessTime
  }

  lemma {:induction false} NewestExists(t: Table)
    requires |t| > 0
    ensures exists p :: IsNewest(t, p)
    decreases |t|
  {
    var x :| x in t;
    var rest := t - {x};
    RemoveOneCard(t, x);
    if |rest| == 0 {
      forall q | q in t ensures t[q].accessTime <= t[x].accessTime {
        assert q !in rest;
      }
      assert IsNewest(t, x);
    } else {
      NewestExists(rest);
      var y :| IsNewest(rest, y);
      var z := if t[x].accessTime <= t[y].accessTime then y else x;
      forall q | q in t ensures t[q].accessTime <= t[z].accessTime {
        if q != x { assert q in rest; }
      }
      assert IsNewest(t, z);
    }
  }

  /** The rows `ORDER BY access_time DESC LIMIT k` returns: `min(k, |t|)`
      distinct recorded paths, newest first, none older than a row left out.
      Among equal access times the pick is fixed but unspecified, as in the
      database. */
  ghost function Newest(t: Table, k: nat): (b: seq<Path>)
    ensures |b| == if k <= |t| then k else |t|
    ensures forall i :: 0 <= i < |b| ==> b[i] in t
    ensures Distinct(b)
    ensures forall i, j :: 0 <= i < j < |b| ==> t[b[j]].accessTime <= t[b[i]].accessTime
    ensures forall i, q :: 0 <= i < |b| && q in t && q !in b ==> t[q].accessTime <= t[b[i]].accessTime
    decreases k
  {
    if k == 0 || |t| == 0 then []
    else
      NewestExists(t);
      var p :| IsNewest(t, p);
      RemoveOneCard(t, p);
      var rest := Newest(t - {p}, k - 1);
      NewestCons(t, p, rest);
      [p] + rest
  }

  /** Putting the newest row in front of a newest-first batch of the other
      rows gives a newest-first batch of the whole table. */
  lemma NewestCons(t: Table, p: Path, rest: seq<Path>)
    requires IsNewest(t, p)
    requires forall i :: 0 <= i < |rest| ==> rest[i] in t - {p}
    requires Distinct(rest)
    requires forall i, j :: 0 <= i < j < |rest| ==> t[rest[j]].accessTime <= t[rest[i]].accessTime
    requires forall i, q :: 0 <= i < |rest| && q in t - {p} && q !in rest ==> t[q].accessTime <= t[rest[i]].accessTime
    ensures forall i :: 0 <= i < |[p] + rest| ==> ([p] + rest)[i] in t
    ensures Distinct([p] + rest)
    ensures forall i, j :: 0 <= i < j < |[p] + rest| ==> t[([p] + rest)[j]].accessTime <= t[([p] + rest)[i]].accessTime
    ensures forall i, q :: 0 <= i < |[p] + rest| && q in t && q !in [p] + rest ==> t[q].accessTime <= t[([p] + rest)[i]].accessTime
  {
    var b := [p] + rest;
    ConsDistinct(p, rest);
    ConsOrdered(t, p, rest);
    forall i, q | 0 <= i < |b| && q in t && q !in b
      ensures t[q].accessTime <= t[b[i]].accessTime
    {
      if i > 0 {
        assert b[i] == rest[i - 1];
        assert q in t - {p} && q !in rest;
      }
    }
  }

  lemma ConsDistinct(p: Path, rest: seq<Path>)
    requires p !in rest && Distinct(rest)
    ensures Distinct([p] + rest)
  {
    var b := [p] + rest;
    forall i, j | 0 <= i < j < |b| ensures b[i] != b[j] {
      assert b[j] == rest[j - 1];
      if i > 0 { assert b[i] == rest[i - 1]; }
    }
  }

  lemma ConsOrdered(t: Table, p: Path, rest: seq<Path>)
    requires IsNewest(t, p)
    requires forall i :: 0 <= i < |rest| ==> rest[i] in t
    requires forall i, j :: 0 <= i < j < |rest| ==> t[rest[j]].accessTime <= t[rest[i]].accessTime
    ensures forall i :: 0 <= i < |[p] + rest| ==> ([p] + rest)[i] in t
    ensures forall i, j :: 0 <= i < j < |[p] + rest| ==> t[([p] + rest)[j]].accessTime <= t[([p] + rest)[i]].accessTime
  {
    var b := [p] + rest;
    forall i, j | 0 <= i < j < |b| ensures t[b[j]].accessTime <= t[b[i]].accessTime {
      assert b[j] == rest[j - 1];
      if i > 0 { assert b[i] == rest[i - 1]; }
    }
  }

  /** The batch is the opposite of least-recently-used: once more rows exist
      than fit in a batch, the row with the strictly oldest access time is
      never among the first evicted. */
  lemma OldestNotInFirstBatch(t: Table, k: nat, p: Path)
    requires k < |t|
    requires p in t
    requires forall q :: q in t && q != p ==> t[p].accessTime < t[q].accessTime
    ensures p !in Newest(t, k)
  {
    var b := Newest(t, k);
    ElemsCard(b);
    var left := t.Keys - Elems(b);
    var kept := t.Keys * Elems(b);
    assert t.Keys == left + kept;
    SubsetCard(kept, Elems(b));
    assert |left| > 0;
    var q :| q in left;
    if q != p {
      forall i | 0 <= i < |b| ensures b[i] != p {
        assert t[q].accessTime <= t[b[i]].accessTime;
      }
    }
  }

  /** With two rows, the newer one comes first. */
  lemma NewestOfTwo(t: Table, p: Path, z: Path, k: nat)
    requires t.Keys == {p, z} && t[z].accessTime < t[p].accessTime
    requires k >= 2
    ensures Newest(t, k) == [p, z]
  {
    var b := Newest(t, k);
    assert p != z;
    assert |t.Keys| == 2;
    assert |b| == 2;
  }

  lemma SubsetCard(a: set<Path>, b: set<Path>)
    requires a <= b
    ensures |a| <= |b|
  {
    assert b == a + (b - a);
  }

  /** Some row of a non-empty table. */
  ghost function AnyRow(t: Table): (p: Path)
    requires |t| > 0
  {
    var p :| p in t; p
  }

  /** The sum of the recorded sizes. */
  ghost function TotalSize(t: Table): (n: nat)
    decreases |t|
  {
    if |t| == 0 then 0
    else
      var p := AnyRow(t);
      RemoveOneCard(t, p);
      t[p].fileSize + TotalSize(t - {p})
  }

  /** The sum does not depend on which row is taken out first. */
  lemma {:induction false} TotalSizeRemove(t: Table, q: Path)
    requires q in t
    ensures TotalSize(t) == t[q].fileSize + TotalSize(t - {q})
    decreases |t|
  {
    var p := AnyRow(t);
    if p != q {
      RemoveOneCard(t, p);
      RemoveOneCard(t, q);
      TotalSizeRemove(t - {p}, q);
      TotalSizeRemove(t - {q}, p);
      assert (t - {p}) - {q} == (t - {q}) - {p};
    }
  }
}

=== FILE: service.dfy ===
/**
  The request handlers of the download server that change or report the
  artifact directory and the access-record table. Each handler takes the
  store and the request's paths (relative to the base directory) and
  returns the new store with the JSON reply.

  An uncaught exception inside a handler (a path that `os.remove` or `open`
  cannot use) makes the web framework answer with a server error; the
  changes made before the exception stay.
 */
module Service {
  import opened Wrappers
  import opened Files
  import opened Records
  import opened State
  import opened Eviction

  datatype Data = NoData | ExistData(exist: bool)

  datatype Reply =
    | Json(status: int, msg: string, data: Data)   // `{"status", "msg", "data"}`
    | FetchAck                                     // `{"is_ok": true}`
    | ServerError                                  // an exception escaped the handler

  const Success: Reply := Json(200, "success", NoData)

  const NotFound: Reply := Json(400, "file not found!", NoData)

  function CheckReply(exist: bool): (r: Reply) {
    Json(200, "success", ExistData(exist))
  }

  datatype Outcome = Outcome(store: Store, reply: Reply)

  // ---------------------------------------------------------------- /fetch

  /** The write step of `fetch`. `got` is the body of a successful download,
      or `None` when the response status was not OK. Opening the path for
      writing follows its links and creates or overwrites the file at their
      end; the record table is never touched. */
  function Fetch(s: Store, p: Path, got: Option<seq<byte>>): (r: Outcome)
    ensures r.store.table == s.table
    ensures got.None? ==> r == Outcome(s, FetchAck)
    ensures r.reply == ServerError <==> got.Some? && Walk(s.fs, p, MaxHops).TooManyLinks?
    ensures r.reply != ServerError ==> r.reply == FetchAck
    ensures r.reply == ServerError ==> r.store == s
    ensures got.Some? && r.reply == FetchAck ==>
      && r.store.fs.Keys == s.fs.Keys + {Walk(s.fs, p, MaxHops).at}
      && r.store.fs[Walk(s.fs, p, MaxHops).at] == File(got.value)
  {
    match got
    case None => Outcome(s, FetchAck)
    case Some(bytes) =>
      var w := Walk(s.fs, p, MaxHops);
      if w.TooManyLinks? then Outcome(s, ServerError)
      else Outcome(Store(s.fs[w.at := File(bytes)], s.table), FetchAck)
  }

  /** A successful download is readable at the requested path afterwards, and
      only the entry at the end of the path's links changed. */
  lemma FetchStoresContent(s: Store, p: Path, bytes: seq<byte>)
    requires !Walk(s.fs, p, MaxHops).TooManyLinks?
    ensures Fetch(s, p, Some(bytes)).reply == FetchAck
    ensures Exists(Fetch(s, p, Some(bytes)).store.fs, p)
    ensures Content(Fetch(s, p, Some(bytes)).store.fs, p) == bytes
    ensures forall q :: q in s.fs && q != Walk(s.fs, p, MaxHops).at ==>
      q in Fetch(s, p, Some(bytes)).store.fs && Fetch(s, p, Some(bytes)).store.fs[q] == s.fs[q]
    ensures Fetch(s, p, Some(bytes)).store.fs.Keys == s.fs.Keys + {Walk(s.fs, p, MaxHops).at}
  {
    WalkAfterWrite(s.fs, p, MaxHops, bytes);
  }

  /** Fetching onto a link to a regular file overwrites that file and keeps
      the link. */
  lemma FetchWritesThroughLink(s: Store, link: Path, t: Path, bytes: seq<byte>)
    requires link in s.fs && s.fs[link] == Link(t)
    requires t in s.fs && s.fs[t].File?
    ensures Fetch(s, link, Some(bytes)) == Outcome(Store(s.fs[t := File(bytes)], s.table), FetchAck)
  {
  }

  // ---------------------------------------------------------------- /check

  /** `check`: an existing path gets its row inserted or refreshed and the
      eviction loop runs; the reply reports whether the path exists after
      that. A missing path changes nothing. */
  ghost function Check(s: Store, p: Path, free: nat, now: Time, startTime: Time): (r: Outcome)
    ensures r.reply.Json? ==> r.reply == CheckReply(Exists(r.store.fs, p))
    ensures r.reply.Json? || r.reply == ServerError
    ensures !Exists(s.fs, p) ==> r == Outcome(s, CheckReply(false))
    ensures Exists(s.fs, p) && free >= Watermark ==>
      r == Outcome(Store(s.fs, Upsert(s.table, s.fs, p, now, startTime)), CheckReply(true))
    ensures Exists(s.fs, p) && free < Watermark && s.table.Keys <= s.fs.Keys ==>
      && r.reply == CheckReply(false)
      && r.store.table == map[]
      && r.store.fs == s.fs - (s.table.Keys + {p})
    ensures Exists(s.fs, p) && free < Watermark && !(s.table.Keys <= s.fs.Keys) ==>
      r.reply == ServerError
    ensures OnlyRemoves(s.fs, r.store.fs, s.table.Keys + {p})
    ensures DeletedWithEntry(s, r.store)
  {
    if !Exists(s.fs, p) then Outcome(s, CheckReply(false))
    else
      var s1 := Store(s.fs, Upsert(s.table, s.fs, p, now, startTime));
      match Gc(s1, free)
      case Finished(s2, _, _) => Outcome(s2, CheckReply(Exists(s2.fs, p)))
      case Raised(s2, _) => Outcome(s2, ServerError)
  }

  /** A row whose path has no entry survives every check, so once one exists
      every check of an existing path fails while free space stays low, until
      something writes an entry at that path again. */
  lemma CheckKeepsStaleRow(s: Store, p: Path, free: nat, now: Time, startTime: Time, q: Path)
    requires q in s.table && q !in s.fs
    ensures q in Check(s, p, free, now, startTime).store.table
    ensures q !in Check(s, p, free, now, startTime).store.fs
  {
  }

  /** Removing a checked file leaves its row behind; the next check of an
      existing file below the watermark then fails, and so does every check
      after it until the file is written again. */
  lemma RemovedRowBreaksCheck(s: Store, gone: Path, p: Path, free: nat, now: Time, startTime: Time)
    requires gone in s.table && Exists(s.fs, gone)
    requires Exists(RmFile(s, gone).store.fs, p)
    requires free < Watermark
    ensures Check(RmFile(s, gone).store, p, free, now, startTime).reply == ServerError
    ensures gone in Check(RmFile(s, gone).store, p, free, now, startTime).store.table
    ensures gone !in Check(RmFile(s, gone).store, p, free, now, startTime).store.fs
  {
    var s1 := RmFile(s, gone).store;
    assert gone in s1.table && gone !in s1.fs;
    CheckKeepsStaleRow(s1, p, free, now, startTime, gone);
  }

  /** A failed check can itself leave a new stale row: the checked file,
      refreshed to be the newest, is removed first in the batch, the stale
      path after it raises, and the batch's row deletions roll back. */
  lemma CheckRaiseLeavesNewStaleRow(s: Store, p: Path, z: Path, free: nat, now: Time, startTime: Time)
    requires p in s.fs && s.fs[p].File?
    requires s.table.Keys == {p, z} && z !in s.fs
    requires s.table[z].accessTime < now
    requires free < Watermark
    ensures Check(s, p, free, now, startTime).reply == ServerError
    ensures p !in Check(s, p, free, now, startTime).store.fs
    ensures p in Check(s, p, free, now, startTime).store.table
    ensures z in Check(s, p, free, now, startTime).store.table
  {
    var t1 := Upsert(s.table, s.fs, p, now, startTime);
    DrainRaisesAfterFirst(Store(s.fs, t1), p, z);
  }

  /** Writing an entry at a stale row's path, as a repeated download does,
      makes the row consistent again. */
  lemma RefetchHealsStaleRow(s: Store, q: Path, bytes: seq<byte>)
    requires q in s.table && q !in s.fs
    ensures q in Fetch(s, q, Some(bytes)).store.table
    ensures q in Fetch(s, q, Some(bytes)).store.fs && Exists(Fetch(s, q, Some(bytes)).store.fs, q)
  {
  }

  // ----------------------------------------------------------------- /copy

  /** `copy_file`: with an existing source, remove whatever occupies the
      target, then copy the bytes read through the source to a new regular
      file at the target. A missing source changes nothing and still
      succeeds. The copy fails when removing the target broke the source,
      which happens when the source's links pass through the target. */
  function CopyFile(s: Store, src: Path, target: Path): (r: Outcome)
    ensures r.store.table == s.table
    ensures !Exists(s.fs, src) ==> r == Outcome(s, Success)
    ensures r.reply == ServerError <==> Exists(s.fs, src) && !Exists(s.fs - {target}, src)
    ensures r.reply != ServerError ==> r.reply == Success
    ensures r.reply == ServerError ==> r.store.fs == s.fs - {target}
    ensures forall q :: q in s.fs && q != target ==> q in r.store.fs && r.store.fs[q] == s.fs[q]
    ensures r.store.fs.Keys <= s.fs.Keys + {target}
  {
    if !Exists(s.fs, src) then Outcome(s, Success)
    else
      OccupiedIffEntry(s.fs, target);
      var cleared := if Exists(s.fs, target) || IsLink(s.fs, target) then s.fs - {target} else s.fs;
      assert cleared == s.fs - {target};
      match Walk(cleared, src, MaxHops)
      case Regular(q) => Outcome(Store(cleared[target := File(cleared[q].content)], s.table), Success)
      case _ => Outcome(Store(cleared, s.table), ServerError)
  }

  /** When it succeeds with an existing source, the target is a regular file
      holding exactly the bytes that were readable through the source. */
  lemma CopyMakesCopy(s: Store, src: Path, target: Path)
    requires Exists(s.fs, src) && Exists(s.fs - {target}, src)
    ensures CopyFile(s, src, target).reply == Success
    ensures CopyFile(s, src, target).store.fs == s.fs[target := File(Content(s.fs, src))]
    ensures Exists(CopyFile(s, src, target).store.fs, target)
    ensures Content(CopyFile(s, src, target).store.fs, target) == Content(s.fs, src)
  {
    assert Submap(s.fs - {target}, s.fs);
    WalkInSubmap(s.fs - {target}, s.fs, src, MaxHops);
  }

  /** Copying an existing path onto itself deletes it and then fails. */
  lemma CopyOntoItself(s: Store, p: Path)
    requires Exists(s.fs, p)
    ensures CopyFile(s, p, p).reply == ServerError
    ensures p !in CopyFile(s, p, p).store.fs
  {
  }

  // -------------------------------------------------------------- /symlink

  /** `set_symlink`: with an existing source, remove whatever occupies the
      link path and create a link there whose text is the joined source path
      `./data/src`; otherwise reply "file not found!" and change nothing.
      Because that text is relative, the link leads to `LinkLanding(link, src)`
      below the link's own directory, not to the source. */
  function SetSymlink(s: Store, src: Path, link: Path): (r: Outcome)
    ensures r.store.table == s.table
    ensures !Exists(s.fs, src) ==> r == Outcome(s, NotFound)
    ensures Exists(s.fs, src) ==>
      r.reply == Success && IsLink(r.store.fs, link) && r.store.fs[link] == Link(LinkLanding(link, src))
    ensures r.store.fs.Keys <= s.fs.Keys + {link}
    ensures forall q :: q in s.fs && q != link ==> q in r.store.fs && r.store.fs[q] == s.fs[q]
  {
    if !Exists(s.fs, src) then Outcome(s, NotFound)
    else
      var cleared := if Exists(s.fs, link) || IsLink(s.fs, link) then s.fs - {link} else s.fs;
      Outcome(Store(cleared[link := Link(LinkLanding(link, src))], s.table), Success)
  }

  /** In the usual layout nothing lives at the doubled path, so a link the
      handler makes dangles: checking it reports that it does not exist and
      changes nothing, removing it leaves it in place, and copying from it
      does nothing. */
  lemma SymlinkDangles(s: Store, src: Path, link: Path, target: Path, free: nat, now: Time, startTime: Time)
    requires Exists(s.fs, src)
    requires LinkLanding(link, src) !in s.fs
    ensures SetSymlink(s, src, link).reply == Success
    ensures IsLink(SetSymlink(s, src, link).store.fs, link)
    ensures !Exists(SetSymlink(s, src, link).store.fs, link)
    ensures Check(SetSymlink(s, src, link).store, link, free, now, startTime)
      == Outcome(SetSymlink(s, src, link).store, CheckReply(false))
    ensures RmFile(SetSymlink(s, src, link).store, link).store == SetSymlink(s, src, link).store
    ensures CopyFile(SetSymlink(s, src, link).store, link, target)
      == Outcome(SetSymlink(s, src, link).store, Success)
  {
    var fs := SetSymlink(s, src, link).store.fs;
    assert Walk(fs, LinkLanding(link, src), MaxHops - 1) == Dangling(LinkLanding(link, src));
  }

  /** The link resolves only when a regular file already sits at the doubled
      path, and then it reads that file, not the source. */
  lemma SymlinkReadsLanding(s: Store, src: Path, link: Path)
    requires Exists(s.fs, src)
    requires LinkLanding(link, src) in s.fs && s.fs[LinkLanding(link, src)].File?
    ensures Exists(SetSymlink(s, src, link).store.fs, link)
    ensures Content(SetSymlink(s, src, link).store.fs, link) == s.fs[LinkLanding(link, src)].content
  {
  }

  /** Linking an existing path to itself succeeds but replaces the path's
      entry with a link; with nothing at the doubled path, the path no longer
      exists. */
  lemma SymlinkOntoItself(s: Store, p: Path)
    requires Exists(s.fs, p)
    requires LinkLanding(p, p) !in s.fs
    ensures SetSymlink(s, p, p).reply == Success
    ensures IsLink(SetSymlink(s, p, p).store.fs, p)
    ensures !Exists(SetSymlink(s, p, p).store.fs, p)
  {
    var fs := SetSymlink(s, p, p).store.fs;
    assert Walk(fs, LinkLanding(p, p), MaxHops - 1) == Dangling(LinkLanding(p, p));
  }

  // --------------------------------------------------------------- /remove

  /** `rm_file`: remove the entry when the path exists; always succeed. The
      record table is not touched. */
  function RmFile(s: Store, p: Path): (r: Outcome)
    ensures r.reply == Success
    ensures r.store.table == s.table
    ensures !Exists(r.store.fs, p)
    ensures Submap(r.store.fs, s.fs)
    ensures forall q :: q in s.fs && q != p ==> q in r.store.fs
  {
    if Exists(s.fs, p) then Outcome(Store(s.fs - {p}, s.table), Success)
    else Outcome(s, Success)
  }

  /** Removing twice is removing once, with the same reply. */
  lemma RmIdempotent(s: Store, p: Path)
    ensures RmFile(RmFile(s, p).store, p) == RmFile(s, p)
  {
  }

  /** The existence test follows links, so a dangling link is not removed. */
  lemma RmKeepsDanglingLink(s: Store, p: Path)
    requires IsLink(s.fs, p) && !Exists(s.fs, p)
    ensures p in RmFile(s, p).store.fs
  {
  }
}

=== FILE: state.dfy ===
/**
  The state the download server keeps between requests.
 */
module State {
  import opened Files
  import opened Records

  /** The artifact directory and the access-record table. */
  datatype Store = Store(fs: Fs, table: Table)
}

=== FILE: wrappers.dfy ===
/** The optional-value datatype used for inputs that may be missing. */
module Wrappers {

  datatype Option<+T> = None | Some(value: T)
}
